=== FILE: README.md ===
# Perceptron pocket trainer and instance store

This project models two Python files in Dafny and proves properties of the model.

- `perceptronmodel.py` holds a `PerceptronModel`. It trains a weight vector with the Batch Perceptron Pocket algorithm, or takes stored weights, or starts empty. It predicts 0 or 1 for a feature row by thresholding the weighted sum at zero.
- `dataset.py` holds a `Dataset`. It is built from the lines of a comma-separated data file. Every field of a line except the last becomes an integer feature of that row, and the last field becomes the row's integer label.

Modules:

- `Options`: the `Option` datatype.
- `Fields`: the pieces of Python string handling the loader uses. These are `str.strip` (over the whitespace of Python's `str.isspace`, Unicode spaces included), `str.split(',')` and `int(...)` on ASCII decimal text (which, unlike `str.strip`, does not skip the information separators U+001C-U+001F). The module also writes integers back out (`Show`), which the round-trip lemmas need.
- `Data`: parsing as pure functions (`ParseRow`, `ParseTable`). The loader's two loops are methods proved equal to those functions (`LoadRows`, `LoadRow`). The `Dataset` class has immutable fields and its four getters.
- `Linear`: the weighted sum (`Dot`) and the zero threshold (`Classify`).
- `Pocket`: one training run as a pure function of its inputs, epoch by epoch (`Run`, `Train`). It also holds the lemmas about that run:
  - excluded features stay at zero;
  - the best count never drops;
  - the pocket holds the weights of the first best epoch;
  - the learning rate follows its closed-form decay schedule.
- `Perceptron`: the `PerceptronModel` class. It has one mutable field, `weights`. `TrainWithData` runs the source's nested loops and is proved to leave `weights == Train(...)`.
- `Scenarios`: a worked run on a two-row separable dataset. It also instantiates the excluded-feature property for a concrete restriction.

Weights and the learning rate are exact `real`s, and the per-epoch `difference` list is integers, as it stays in the source. The training constants are a `Config` parameter whose default, `DefaultConfig`, is the source's (2000 epochs, rate 10, factor 0.95, every 100 epochs).

## Where the code and its documentation differ

The model follows the code here:

- The module docstring assumes that all rows of a data file have the same number of values (dataset.py:11). The loader does not check this, so rows of different lengths load without complaint. `get_input_dimensions` looks at row 0 only (dataset.py:54-57). Training therefore requires `RowsCoverDimensions`: every row has at least as many features as row 0. Without that, `weighted_sum` would index past the end of a shorter row.

## Model

| member | source | states |
|---|---|---|
| Perceptron.PerceptronModel.TrainWithData | perceptronmodel.py:61-134 | the loops leave `weights` equal to the pocket of the pure run `Train(JobFor(data, features, config))`; each epoch's loop invariant ties the trainer's variables to `Run(job, epoch)` |
| Perceptron.PerceptronModel.ScoreEpoch | perceptronmodel.py:85-108 | `correct` is the number of rows predicted right and `difference` is the error-weighted sum of the mispredicted rows (`CorrectCount`, `Difference`) |
| Perceptron.PerceptronModel.CopyIntoPocket | perceptronmodel.py:113-115 | copying position by position makes the pocket equal to the current weights |
| Perceptron.PerceptronModel.ApplyUpdate | perceptronmodel.py:120-123 | every allowed weight moves by rate * difference / size; every other weight is left exactly as it was |
| Perceptron.PerceptronModel.DecayRate | perceptronmodel.py:129-131 | the rate is multiplied by the decay factor exactly after epochs whose 1-based number is a multiple of the interval (`NextRate`) |
| Perceptron.PerceptronModel.GetModelWeights | perceptronmodel.py:183-187 | returns the model's weights |
| Perceptron.PerceptronModel.Predict | perceptronmodel.py:189-197 | the prediction is 0 or 1, and it is 1 exactly when the weighted sum is at least 0, so a sum of exactly 0 predicts 1 |
| Perceptron.PerceptronModel.WeightedSum | perceptronmodel.py:199-207 | the loop's total is `Dot(weights, instance)`, the sum of `instance[i] * weights[i]` over the weights' positions |
| Perceptron.PerceptronModel.Trained | perceptronmodel.py:42-57 | a model built from a dataset holds the trained pocket weights |
| Perceptron.PerceptronModel.Loaded | perceptronmodel.py:58-59 | a model built from stored weights holds exactly those weights |
| Perceptron.PerceptronModel.Empty | perceptronmodel.py:51-59 | a model built from anything else has no weights |
| Perceptron.CanTrainOnIsTrainable | perceptronmodel.py:72-77 | a valid dataset whose rows cover its input dimension yields a well-defined training run |
| Pocket.EpochStep | perceptronmodel.py:85-131 | one epoch keeps one weight per dimension; the best count never drops; when it rises the pocket takes the weights the epoch scored and the count is their correct count, otherwise the pocket is unchanged; weights outside `features_to_use` are not touched |
| Pocket.Difference | perceptronmodel.py:87-108 | one entry per weight, and entry j is `ErrorSum`: the sum over the rows of (label - prediction) * row[j], which only mispredicted rows add to |
| Pocket.Update | perceptronmodel.py:121-123 | one weight per weight; a weight outside `features_to_use`, or one whose difference is 0, stays exactly as it was |
| Pocket.NextRate | perceptronmodel.py:129-130 | the next rate is the current rate, or the current rate times the decay factor |
| Pocket.Train | perceptronmodel.py:72-134 | the trained model has exactly one weight per input dimension, and every weight outside `features_to_use` is exactly 0, as the docstring at perceptronmodel.py:65-67 promises |
| Pocket.ExcludedWeightsStayZero | perceptronmodel.py:121-123 | every weight whose index is outside `features_to_use` is 0 in the current weights and in the pocket after every epoch |
| Pocket.ExcludedStep | perceptronmodel.py:113-123 | one epoch keeps the excluded weights at 0 in both the current and the pocket weights |
| Pocket.ExcludedFeaturesDoNotMatter | perceptronmodel.py:11-14 | two rows that agree on the allowed features get the same prediction from the trained model |
| Pocket.PocketStep | perceptronmodel.py:113-117 | the pocket and the best count change only when an epoch scores strictly more than the best so far (a tie leaves them alone), and then they take that epoch's weights and count |
| Pocket.BestStep | perceptronmodel.py:113-117 | after one epoch the best count is at least the old best count and at least the epoch's own count, and a best count still at 0 leaves the pocket alone |
| Pocket.BestCountNeverDecreases | perceptronmodel.py:113-117 | the best count after epoch k is at most the best count after any later epoch m |
| Pocket.EpochsBelowBest | perceptronmodel.py:91-117 | no epoch so far scored more than the best count |
| Pocket.NothingRightKeepsZeros | perceptronmodel.py:72-117 | while the best count is 0 the pocket still holds the initial zeros |
| Pocket.PocketIsFirstBest | perceptronmodel.py:79-117 | no epoch scored more than the best count; if the best count is 0 the pocket is all zeros; otherwise the pocket holds the weights of the first epoch to reach the best count, as they stood before that epoch's update |
| Pocket.PocketAccuracyIsBest | perceptronmodel.py:113-134 | after at least one epoch, the pocket weights score exactly the best count on the training rows, and no epoch scored more |
| Pocket.RunRate | perceptronmodel.py:81-130 | the rate carried through the run equals the stand-alone schedule `RateAfter` |
| Pocket.IntervalsIsQuotient | perceptronmodel.py:129 | counting the epochs that close an interval gives floor(k / epochsPerReduction) |
| Pocket.RateAfterClosedForm | perceptronmodel.py:129-130 | the scheduled rate after k epochs is the initial rate multiplied by the decay factor once for every closed interval |
| Pocket.RateSchedule | perceptronmodel.py:81-130 | after k epochs the rate is the initial rate multiplied floor(k / epochsPerReduction) times by the decay factor; it is never reset |
| Pocket.RateAfterDecreases | perceptronmodel.py:129-130 | with a factor in [0, 1] and a non-negative initial rate, the scheduled rate stays non-negative and never grows |
| Pocket.RateNeverGrows | perceptronmodel.py:129-130 | the same for the rate carried through the run |
| Pocket.StepCount | perceptronmodel.py:129 | epoch k adds one to floor(k / p) exactly when k is a multiple of p |
| Pocket.AllCorrectNoDifference | perceptronmodel.py:103-105 | weights that predict every row right accumulate an all-zero difference |
| Pocket.PerfectEpochIsFixedPoint | perceptronmodel.py:103-123 | an epoch whose weights predict every row right leaves the weights unchanged |
| Pocket.CorrectCount | perceptronmodel.py:91-104 | the number of correctly predicted rows among the first n is at most n |
| Pocket.Run | perceptronmodel.py:75-131 | after any number of epochs, both the current and the pocket weights have one entry per input dimension |
| Linear.DotIgnoresExtraFeatures | perceptronmodel.py:204-207 | features past the last weight do not change the weighted sum |
| Linear.DotIgnoresZeroWeights | perceptronmodel.py:204-207 | two rows that agree wherever the weight is non-zero have the same weighted sum |
| Linear.ZeroWeightsPredictOne | perceptronmodel.py:193-207 | all-zero weights give a weighted sum of 0 and predict 1 for every row |
| Linear.ZeroRowSumsToZero | perceptronmodel.py:193-207 | a row whose features are all 0 sums to 0 under any weights and is predicted 1 |
| Linear.NonNegativeSum | perceptronmodel.py:193-207 | non-negative weights on non-negative features give a non-negative sum, predicted 1 |
| Linear.Classify | perceptronmodel.py:193-197 | the prediction is 0 or 1, and it is 1 exactly when the weighted sum is at least 0, so a sum of exactly 0 predicts 1 |
| Linear.Zeros | perceptronmodel.py:75-77 | the initial weights are n zeros |
| Scenarios.FirstEpoch | perceptronmodel.py:83-131 | on rows [1,0] labelled 0 and [0,1] labelled 1, the first epoch yields weights [-5, 0], a zero pocket with best count 1, and rate 10 |
| Scenarios.SeparatingWeights | perceptronmodel.py:189-197 | the weights [-5, 0] predict both rows of that dataset right |
| Scenarios.SettledAfterSecondEpoch | perceptronmodel.py:83-131 | from the second epoch on, the weights and the pocket stay at [-5, 0] with best count 2 |
| Scenarios.SeparableDataIsLearned | perceptronmodel.py:61-134 | training on that dataset yields [-5, 0], which separates its two rows |
| Scenarios.RestrictedToFirstFeature | perceptronmodel.py:121-123 | with `features_to_use = {0}` over three features, trained weights 1 and 2 are exactly 0 |
| Data.Dataset.Load | dataset.py:19-41 | there is no store exactly when some line does not parse; otherwise a new, valid store holds the parsed rows and labels |
| Data.LoadRows | dataset.py:28-39 | the outer loop over lines computes `ParseTable(lines)`; the first line that fails aborts the load |
| Data.LoadRow | dataset.py:29-39 | the inner loop over one line's fields computes `ParseRow(line)` |
| Data.Dataset.FromTable | dataset.py:23-24 | the store holds the given rows and labels |
| Data.Dataset.GetSize | dataset.py:43-47 | the number of rows, which equals the number of labels |
| Data.Dataset.GetInputDimensions | dataset.py:49-57 | 0 for an empty store, otherwise the length of row 0 only |
| Data.Dataset.GetInstance | dataset.py:59-63 | row `index` of the store |
| Data.Dataset.GetOutput | dataset.py:65-69 | label `index` of the store |
| Data.ParseEachMeaning | dataset.py:33-34 | reading a list of fields succeeds exactly when every field reads, and then result i is field i read |
| Data.ParseTableMeaning | dataset.py:28-39 | the load succeeds exactly when every line parses, and then row i and label i come from line i, in file order |
| Data.ParseTable | dataset.py:36-39 | a successful load has as many rows and labels as there are lines |
| Data.Columns | dataset.py:36-39 | parsed lines split into rows and labels that keep their order |
| Data.FieldFails | dataset.py:33-34 | a feature field that is not an integer makes its line fail |
| Data.RowFails | dataset.py:28-39 | a line that fails makes the whole load fail |
| Data.BlankLineFails | dataset.py:29-39 | an empty or all-whitespace line fails, because its only field is empty |
| Data.SingleFieldRow | dataset.py:29-39 | a line without a comma gives an empty feature row, with its stripped text read as the label, and fails exactly when that text is not an integer |
| Data.ParseRow | dataset.py:29-39 | a line parses exactly when every field of its stripped text, split at commas, is an integer; it then has one feature fewer than it has fields |
| Data.ParseEntries | dataset.py:32-39 | the fields parse exactly when every one is an integer; then the features are the fields but the last, read in order, and the label is the last field read |
| Data.ParseApart | dataset.py:32-39 | the same split of a list into everything but the last element and the last element, for any per-field reader |
| Data.ParseShowAll | dataset.py:33-34 | integers written as decimal fields read back as the same integers |
| Data.FormatRowFields | dataset.py:29 | stripping and splitting a written line gives back its fields |
| Data.ParseShownEntries | dataset.py:33-39 | the fields of a row followed by its label read back as that row and label |
| Data.ParseFormatRow | dataset.py:29-39 | a line written from a row and a label parses back to that row and label |
| Data.ParseFormatTable | dataset.py:28-39 | a file written from any rows and labels, of any lengths, loads back as exactly those rows and labels |
| Data.JoinEnds | dataset.py:29 | a written line neither starts nor ends with whitespace |
| Fields.TrimLeft | dataset.py:29 | strips exactly the leading whitespace |
| Fields.TrimRight | dataset.py:29 | strips exactly the trailing whitespace |
| Fields.Strip | dataset.py:29 | the result does not start or end with whitespace, and it is empty exactly when the text is all whitespace; whitespace is what `str.isspace` accepts, including U+0085, U+00A0, U+1680, U+2000-U+200A, U+2028, U+2029, U+202F, U+205F and U+3000 |
| Data.StripTrailingSpaces | dataset.py:29 | any two whitespace characters after a trimmed line, its line end included, are stripped away |
| Data.NoBreakSpaceIsStripped | dataset.py:29-39 | the line `1,0` followed by a no-break space and a newline parses as the row [1] with label 0 |
| Data.InfoSeparatorFailsRow | dataset.py:29-39 | the line `1`, U+001C, `,0` and a newline fails to load: the separator is inside the first field, so `str.strip` leaves it and `int()` rejects the field |
| Data.SplitTwo | dataset.py:29 | two comma-free fields joined by one comma split back into exactly those two fields |
| Fields.StripIsSlice | dataset.py:29 | the result is, character for character, the slice of the text that starts after its leading whitespace; everything before and after that slice is whitespace |
| Fields.StripKeepsOut | dataset.py:29 | stripping brings in no character the text did not have |
| Fields.StripLineEnd | dataset.py:29 | stripping a trimmed line with its newline gives back the line |
| Fields.StripIdempotent | dataset.py:29 | stripping twice is stripping once |
| Fields.Split | dataset.py:29 | splitting gives at least one piece, and no piece contains the separator |
| Fields.JoinSplit | dataset.py:29 | joining the pieces of a split with the separator gives back the text |
| Fields.SplitJoin | dataset.py:29 | splitting a join of separator-free pieces gives back the pieces |
| Fields.SplitPrefix | dataset.py:29 | splitting a separator-free piece, a separator and a rest gives that piece, then the pieces of the rest |
| Fields.ParseInt | dataset.py:34-39 | text reads as an integer exactly when it holds no information separator (U+001C-U+001F) and, once stripped, is ASCII digits with at most one leading sign and at least one digit; unsigned digits give a non-negative value and a leading minus a non-positive one |
| Fields.InfoSeparatorIsNotInt | dataset.py:34-39 | text with an information separator (U+001C-U+001F) anywhere in it is not an integer, since `int()` does not skip those characters although `str.isspace` holds for them |
| Fields.ParseShow | dataset.py:34-39 | every integer written in decimal reads back as itself |
| Fields.BlankIsNotInt | dataset.py:34-39 | empty or all-whitespace text is not an integer |

## Left out

- File input and output are not modelled. `Dataset.Load` takes the file's lines, and `PerceptronModel.Loaded` takes the already-parsed weights. `load_from_file` and `save_model_weights` (perceptronmodel.py:136-181) are not modelled, and neither is closing the file (dataset.py:41).
- The `print` diagnostics (perceptronmodel.py:118, 131) have no effect on state and are left out.
- Floating point is not modelled. Weights and the learning rate are exact reals, so rounding, overflow and NaN are not captured. No convergence result is claimed.
- Python's `int()` also accepts underscores between digits and non-ASCII decimal digits. `Fields.ParseInt` accepts surrounding whitespace (the `str.isspace` characters that `Fields.IsSpace` lists, except the information separators U+001C-U+001F, which `int()` rejects anywhere in its text), an optional sign and ASCII decimal digits only.
- `constants.py` is a static table of feature indices and names used only by `save_model_weights`. It is not part of this model.
- The constructor's `isinstance` dispatch (perceptronmodel.py:56-59) becomes three constructors: `Trained`, `Loaded` and `Empty`.
- `features_to_use` is modelled as an optional set of indices. The code only ever tests membership in it.
- Perceptron.PerceptronModel.TrainWithData: it requires `weights == []`. The code appends to whatever weights the model already has, but its only caller, the constructor, always starts from an empty list.
- Perceptron.PerceptronModel.TrainWithData: it requires every row to have at least as many features as row 0. On shorter rows the code would raise an index error, which is not modelled.
- Data.Dataset.GetInstance: it requires `0 <= index < GetSize()`. Python would also accept negative indices, counting from the end, and that case is not modelled. The same holds for Data.Dataset.GetOutput.
- Perceptron.PerceptronModel.Predict: it requires `|instance| >= |weights|`. On a shorter row Python raises an IndexError at perceptronmodel.py:206, and that error is not modelled.
- Perceptron.PerceptronModel.WeightedSum: it requires `|instance| >= |weights|`. On a shorter row Python raises an IndexError at perceptronmodel.py:206, and that error is not modelled.
- Linear.Dot: its properties are stated as lemmas (`ZeroWeightsPredictOne`, `ZeroRowSumsToZero`, `NonNegativeSum`, `DotIgnoresExtraFeatures`, `DotIgnoresZeroWeights`) rather than as postconditions of the function.
- Perceptron.PerceptronModel.GetModelWeights: it returns the weights as a value. The Python list it returns is shared with the model, and that aliasing is not modelled.
- The getters cannot change the store, because `data` and `outputs` are `const` fields. This is a property of the types, not a separate lemma.

=== FILE: dataset.dfy ===
/**
 * The instance store: a table of integer feature rows and a parallel list of
 * integer labels, read once from the lines of a comma-separated file and
 * never changed afterwards.
 */
module Data {
  import opened Options
  import opened Fields

  /** What loading produces: one feature row and one label per line, in file order. */
  datatype Table = Table(data: seq<seq<int>>, outputs: seq<int>)

  /** Every element parsed, in order; nothing as soon as one element does not parse. */
  function ParseEach<T, U>(xs: seq<T>, parse: T -> Option<U>): (r: Option<seq<U>>)
    ensures r.Some? ==> |r.value| == |xs|
  {
    if |xs| == 0 then Some([])
    else
      match ParseEach(xs[..|xs| - 1], parse)
      case None => None
      case Some(ys) =>
        match parse(xs[|xs| - 1])
        case None => None
        case Some(y) => Some(ys + [y])
  }

  /** Parsing all succeeds exactly when each element parses, and then result i is element i parsed. */
  lemma {:induction false} ParseEachMeaning<T, U>(xs: seq<T>, parse: T -> Option<U>)
    ensures ParseEach(xs, parse).Some? ==>
      forall i :: 0 <= i < |xs| ==> parse(xs[i]) == Some(ParseEach(xs, parse).value[i])
    ensures ParseEach(xs, parse).None? <==> exists i :: 0 <= i < |xs| && parse(xs[i]).None?
  {
    if |xs| > 0 {
      var n := |xs|;
      var init := xs[..n - 1];
      ParseEachMeaning(init, parse);
      assert forall i :: 0 <= i < n - 1 ==> init[i] == xs[i];
      match ParseEach(init, parse)
      case None =>
        var i :| 0 <= i < n - 1 && parse(init[i]).None?;
        assert parse(xs[i]).None?;
      case Some(ys) =>
        match parse(xs[n - 1])
        case None =>
        case Some(y) =>
          var r := ys + [y];
          assert ParseEach(xs, parse) == Some(r);
          assert forall i :: 0 <= i < n - 1 ==> parse(xs[i]) == Some(r[i]);
    }
  }

  /** Every field read as an integer, or nothing if any field is not an integer. */
  function ParseFields(fields: seq<string>): (r: Option<seq<int>>) {
    ParseEach(fields, ParseInt)
  }

  /**
   * One line: stripped, split on commas; all fields but the last are the
   * features and the last is the label.
   */
  function ParseRow(line: string): (r: Option<(seq<int>, int)>)
    ensures r.Some? <==> AllInts(Split(Strip(line), ','))
    ensures r.Some? ==> |r.value.0| == |Split(Strip(line), ',')| - 1
  {
    ParseEntries(Split(Strip(line), ','))
  }

  /** Every field reads as an integer. */
  predicate AllInts(fields: seq<string>) {
    forall k :: 0 <= k < |fields| ==> ParseInt(fields[k]).Some?
  }

  /** The fields of one line: all but the last read as features, the last as the label. */
  function ParseEntries(entries: seq<string>): (r: Option<(seq<int>, int)>)
    requires |entries| >= 1
    ensures r.Some? <==> AllInts(entries)
    ensures r.Some? ==> |r.value.0| == |entries| - 1
    ensures r.Some? ==> forall k :: 0 <= k < |entries| - 1 ==> ParseInt(entries[k]) == Some(r.value.0[k])
    ensures r.Some? ==> ParseInt(entries[|entries| - 1]) == Some(r.value.1)
  {
    ParseApart(entries, ParseInt)
  }

  /**
   * All elements but the last parsed into a list, and the last on its own;
   * nothing if any element does not parse.
   */
  function ParseApart<T, U>(xs: seq<T>, parse: T -> Option<U>): (r: Option<(seq<U>, U)>)
    requires |xs| >= 1
    ensures r.Some? <==> forall k :: 0 <= k < |xs| ==> parse(xs[k]).Some?
    ensures r.Some? ==> |r.value.0| == |xs| - 1
    ensures r.Some? ==> forall k :: 0 <= k < |xs| - 1 ==> parse(xs[k]) == Some(r.value.0[k])
    ensures r.Some? ==> parse(xs[|xs| - 1]) == Some(r.value.1)
  {
    var init := xs[..|xs| - 1];
    ParseEachMeaning(init, parse);
    assert forall k :: 0 <= k < |init| ==> init[k] == xs[k];
    match ParseEach(init, parse)
    case None => None
    case Some(ys) =>
      match parse(xs[|xs| - 1])
      case None => None
      case Some(y) => Some((ys, y))
  }

  /** All lines, in order; any line that does not parse makes the whole load fail. */
  function ParseTable(lines: seq<string>): (r: Option<Table>)
    ensures r.Some? ==> |r.value.data| == |lines| && |r.value.outputs| == |lines|
  {
    match ParseEach(lines, ParseRow)
    case None => None
    case Some(rows) => Some(Columns(rows))
  }

  /** Parsed lines gathered into the feature rows and the labels, keeping their order. */
  function Columns(rows: seq<(seq<int>, int)>): (t: Table)
    ensures |t.data| == |rows| && |t.outputs| == |rows|
    ensures forall i :: 0 <= i < |rows| ==> rows[i] == (t.data[i], t.outputs[i])
  {
    Table(seq(|rows|, i requires 0 <= i < |rows| => rows[i].0),
          seq(|rows|, i requires 0 <= i < |rows| => rows[i].1))
  }

  /**
   * The load succeeds exactly when every line parses, and then row i and
   * label i are what line i gives.
   */
  lemma {:induction false} ParseTableMeaning(lines: seq<string>)
    ensures ParseTable(lines).Some? ==> forall i :: 0 <= i < |lines| ==>
      ParseRow(lines[i]) == Some((ParseTable(lines).value.data[i], ParseTable(lines).value.outputs[i]))
    ensures ParseTable(lines).None? <==> exists i :: 0 <= i < |lines| && ParseRow(lines[i]).None?
  {
    ParseEachMeaning(lines, ParseRow);
  }

  /**
   * The loader's outer loop: each line read in turn; the first line that
   * does not parse aborts the load.
   */
  method LoadRows(lines: seq<string>) returns (r: Option<Table>)
    ensures r == ParseTable(lines)
  {
    var data: seq<seq<int>> := [];
    var outputs: seq<int> := [];
    ghost var rows: seq<(seq<int>, int)> := [];
    for n := 0 to |lines|
      invariant ParseEach(lines[..n], ParseRow) == Some(rows)
      invariant Columns(rows) == Table(data, outputs)
    {
      var row := LoadRow(lines[n]);
      if row.None? {
        RowFails(lines, n);
        return None;
      }
      EachStep(lines, n, ParseRow);
      ColumnsStep(rows, row.value);
      rows := rows + [row.value];
      data := data + [row.value.0];
      outputs := outputs + [row.value.1];
    }
    assert lines[..|lines|] == lines;
    r := Some(Table(data, outputs));
  }

  /**
   * The loader's inner loop for one line: each field but the last read into
   * the instance, then the last field into the label.
   */
  method LoadRow(line: string) returns (r: Option<(seq<int>, int)>)
    ensures r == ParseRow(line)
  {
    var entries := Split(Strip(line), ',');
    var instance: seq<int> := [];
    for k := 0 to |entries| - 1
      invariant ParseEach(entries[..k], ParseInt) == Some(instance)
    {
      var value := ParseInt(entries[k]);
      if value.None? {
        FieldFails(entries, k);
        return None;
      }
      EachStep(entries, k, ParseInt);
      instance := instance + [value.value];
    }
    assert entries[..|entries| - 1][..|entries| - 1] == entries[..|entries| - 1];
    var output := ParseInt(entries[|entries| - 1]);
    if output.None? {
      return None;
    }
    r := Some((instance, output.value));
  }

  /** Parsing one more element extends the parsed prefix by that element's value. */
  lemma EachStep<T, U>(xs: seq<T>, n: nat, parse: T -> Option<U>)
    requires n < |xs|
    ensures ParseEach(xs[..n + 1], parse) ==
      match ParseEach(xs[..n], parse)
      case None => None
      case Some(ys) => (match parse(xs[n]) case None => None case Some(y) => Some(ys + [y]))
  {
    assert xs[..n + 1][..n] == xs[..n];
  }

  /** One more parsed line adds its features and its label at the end. */
  lemma ColumnsStep(rows: seq<(seq<int>, int)>, row: (seq<int>, int))
    ensures Columns(rows + [row]) == Table(Columns(rows).data + [row.0], Columns(rows).outputs + [row.1])
  {
  }

  /** A line that does not parse makes the whole load fail. */
  lemma RowFails(lines: seq<string>, n: nat)
    requires n < |lines| && ParseRow(lines[n]).None?
    ensures ParseTable(lines).None?
  {
    ParseTableMeaning(lines);
  }

  /** A feature field that is not an integer makes its line fail. */
  lemma FieldFails(entries: seq<string>, k: nat)
    requires k < |entries| - 1 && ParseInt(entries[k]).None?
    ensures ParseEntries(entries).None?
  {
    var fields := entries[..|entries| - 1];
    assert fields[k] == entries[k];
    ParseEachMeaning(fields, ParseInt);
  }

  /** The data file line for a feature row and its label, as a writer of the file would produce it. */
  function FormatRow(instance: seq<int>, output: int): (line: string) {
    Join(ShowAll(instance + [output]), ',') + "\n"
  }

  function ShowAll(xs: seq<int>): (r: seq<string>)
    ensures |r| == |xs| && forall i :: 0 <= i < |xs| ==> r[i] == Show(xs[i])
  {
    seq(|xs|, i requires 0 <= i < |xs| => Show(xs[i]))
  }

  /** Reading the spelled-out fields gives back the integers. */
  lemma {:induction false} ParseShowAll(xs: seq<int>)
    ensures ParseFields(ShowAll(xs)) == Some(xs)
  {
    forall i | 0 <= i < |xs| ensures ParseInt(ShowAll(xs)[i]) == Some(xs[i]) {
      ParseShow(xs[i]);
    }
    ParseEachMeaning(ShowAll(xs), ParseInt);
    var r := ParseFields(ShowAll(xs));
    assert r.Some?;
    assert r.value == xs;
  }

  /** A line written from a row and a label reads back as that row and label. */
  lemma {:induction false} ParseFormatRow(instance: seq<int>, output: int)
    ensures ParseRow(FormatRow(instance, output)) == Some((instance, output))
  {
    FormatRowFields(instance, output);
    ParseShownEntries(instance, output);
  }

  /** The spelled-out fields of a row and its label read back as that row and label. */
  lemma {:induction false} ParseShownEntries(instance: seq<int>, output: int)
    ensures ParseEntries(ShowAll(instance + [output])) == Some((instance, output))
  {
    var entries := ShowAll(instance + [output]);
    assert entries[..|entries| - 1] == ShowAll(instance);
    ParseShowAll(instance);
    assert entries[|entries| - 1] == Show(output);
    ParseShow(output);
  }

  /** Stripping and splitting a written line gives back its spelled-out fields. */
  lemma {:induction false} FormatRowFields(instance: seq<int>, output: int)
    ensures Split(Strip(FormatRow(instance, output)), ',') == ShowAll(instance + [output])
  {
    var parts := ShowAll(instance + [output]);
    forall i | 0 <= i < |parts|
      ensures ',' !in parts[i]
      ensures parts[i] != [] && !IsSpace(parts[i][0]) && !IsSpace(parts[i][|parts[i]| - 1])
    {
      ParseShow((instance + [output])[i]);
    }
    JoinEnds(parts);
    StripLineEnd(Join(parts, ','));
    SplitJoin(parts, ',');
  }

  /** A joined line of spelled-out integers starts and ends with a non-space character. */
  lemma {:induction false} JoinEnds(parts: seq<string>)
    requires |parts| >= 1
    requires forall i :: 0 <= i < |parts| ==> parts[i] != [] && !IsSpace(parts[i][0]) && !IsSpace(parts[i][|parts[i]| - 1])
    ensures var s := Join(parts, ','); s != [] && !IsSpace(s[0]) && !IsSpace(s[|s| - 1])
  {
    if |parts| > 1 {
      JoinEnds(parts[1..]);
    }
  }

  /** The lines a file holding these rows and labels would contain. */
  function FormatTable(rows: seq<seq<int>>, labels: seq<int>): (lines: seq<string>)
    requires |rows| == |labels|
  {
    seq(|rows|, i requires 0 <= i < |rows| => FormatRow(rows[i], labels[i]))
  }

  /** Loading a file written from a table gives back that table, whatever the row lengths. */
  lemma {:induction false} ParseFormatTable(rows: seq<seq<int>>, labels: seq<int>)
    requires |rows| == |labels|
    ensures ParseTable(FormatTable(rows, labels)) == Some(Table(rows, labels))
  {
    var lines := FormatTable(rows, labels);
    forall i | 0 <= i < |lines| ensures ParseRow(lines[i]) == Some((rows[i], labels[i])) {
      ParseFormatRow(rows[i], labels[i]);
    }
    ParseTableMeaning(lines);
    var r := ParseTable(lines);
    assert r.Some?;
    assert r.value.data == rows;
    assert r.value.outputs == labels;
  }

  /** An empty or all-blank line aborts the load. */
  lemma {:induction false} BlankLineFails(line: string)
    requires forall i :: 0 <= i < |line| ==> IsSpace(line[i])
    ensures ParseRow(line) == None
  {
    var entries := Split(Strip(line), ',');
    assert Strip(line) == [];
    assert entries == [""];
    BlankIsNotInt("");
  }

  /** A no-break space before the line end is stripped like any other whitespace. */
  lemma NoBreakSpaceIsStripped()
    ensures ParseRow("1,0\U{00A0}\n") == Some(([1], 0))
  {
    assert "1,0\U{00A0}\n" == "1,0" + ['\U{00A0}'] + ['\n'];
    StripTrailingSpaces("1,0", '\U{00A0}', '\n');
    SplitOneZero();
    ReadOneZero();
  }

  lemma ReadOneZero()
    ensures ParseEntries(["1", "0"]) == Some(([1], 0))
  {
    ParseShownEntries([1], 0);
    assert ShowAll([1] + [0]) == ["1", "0"];
  }

  /** Trailing whitespace after a trimmed line, line end included, is stripped away. */
  lemma StripTrailingSpaces(t: string, c: char, d: char)
    requires t != [] && !IsSpace(t[0]) && !IsSpace(t[|t| - 1])
    requires IsSpace(c) && IsSpace(d)
    ensures Strip(t + [c] + [d]) == t
  {
    var line := t + [c] + [d];
    assert TrimLeft(line) == line by {
      assert line[0] == t[0];
    }
    TrailingSpaceTrimmed(t + [c], d);
    TrailingSpaceTrimmed(t, c);
  }

  /** A whitespace character at the end of a line does not change its right-trimmed text. */
  lemma TrailingSpaceTrimmed(t: string, c: char)
    requires IsSpace(c)
    ensures TrimRight(t + [c]) == TrimRight(t)
  {
    assert (t + [c])[..|t|] == t;
  }

  lemma SplitOneZero()
    ensures Split("1,0", ',') == ["1", "0"]
  {
    SplitTwo("1", "0");
    assert "1" + "," + "0" == "1,0";
  }

  /** Two comma-free fields joined by one comma split back into those two fields. */
  lemma SplitTwo(a: string, b: string)
    requires ',' !in a && ',' !in b
    ensures Split(a + "," + b, ',') == [a, b]
  {
    SplitPrefix(a, "," + b, ',');
    assert a + "," + b == a + ("," + b);
    assert ("," + b)[1..] == b;
    SplitWhole(b, ',');
    assert Split("," + b, ',') == [""] + Split(b, ',') == ["", b];
    assert a + "" == a;
  }

  /**
   * An information separator inside a field fails the line: `str.strip`
   * removes it only at the ends of the line, and `int` does not skip it.
   */
  lemma InfoSeparatorFailsRow()
    ensures ParseRow("1\U{001C},0\n") == None
  {
    var a := "1\U{001C}";
    var t := a + "," + "0";
    assert "1\U{001C},0\n" == t + "\n";
    StripLineEnd(t);
    SplitTwo(a, "0");
    InfoSeparatorIsNotInt(a, 1);
    FieldFails([a, "0"], 0);
  }

  /** A line without a comma has no features, and its stripped text read as an integer is the label. */
  lemma {:induction false} SingleFieldRow(line: string)
    requires ',' !in line
    ensures ParseRow(line) == match ParseInt(Strip(line)) case None => None case Some(v) => Some(([], v))
  {
    var t := Strip(line);
    StripKeepsOut(line, ',');
    SplitWhole(t, ',');
    SingleEntry(t);
  }

  /** Text without the separator splits into itself alone. */
  lemma SplitWhole(t: string, sep: char)
    requires sep !in t
    ensures Split(t, sep) == [t]
  {
    SplitPrefix(t, "", sep);
    assert t + "" == t;
  }

  /** A single field is read as the label of an empty feature row. */
  lemma SingleEntry(t: string)
    ensures ParseEntries([t]) == match ParseInt(t) case None => None case Some(v) => Some(([], v))
  {
    assert [t][..0] == [];
  }

  class Dataset {
    const data: seq<seq<int>>
    const outputs: seq<int>

    /** Rows and labels are parallel lists. */
    ghost predicate Valid() {
      |data| == |outputs|
    }

    constructor FromTable(t: Table)
      requires |t.data| == |t.outputs|
      ensures Valid() && data == t.data && outputs == t.outputs
    {
      data := t.data;
      outputs := t.outputs;
    }

    /** Builds the store from the lines of a file; no store when any line is malformed. */
    static method Load(lines: seq<string>) returns (d: Option<Dataset>)
      ensures d.None? <==> ParseTable(lines).None?
      ensures d.Some? ==> fresh(d.value) && d.value.Valid()
      ensures d.Some? ==> d.value.data == ParseTable(lines).value.data
      ensures d.Some? ==> d.value.outputs == ParseTable(lines).value.outputs
    {
      var t := LoadRows(lines);
      if t.None? {
        d := None;
      } else {
        var store := new Dataset.FromTable(t.value);
        d := Some(store);
      }
    }

    /** The number of instances, which is also the number of labels. */
    function GetSize(): (n: nat)
      requires Valid()
      ensures n == |data| && n == |outputs|
    {
      |data|
    }

    /** The length of the first row, or 0 for an empty store; later rows are not inspected. */
    function GetInputDimensions(): (d: nat)
      ensures data == [] ==> d == 0
      ensures data != [] ==> d == |data[0]|
    {
      if data == [] then 0 else |data[0]|
    }

    function GetInstance(index: int): (x: seq<int>)
      requires Valid() && 0 <= index < GetSize()
      ensures x == data[index]
    {
      data[index]
    }

    function GetOutput(index: int): (y: int)
      requires Valid() && 0 <= index < GetSize()
      ensures y == outputs[index]
    {
      outputs[index]
    }

    /** Every row has at least as many features as the first one (the loader does not check this). */
    predicate RowsCoverDimensions() {
      forall i :: 0 <= i < |data| ==> |data[i]| >= GetInputDimensions()
    }
  }
}

=== FILE: fields.dfy ===
/**
 * The three string operations the loader relies on, written out so that the
 * loader's behaviour can be stated exactly: stripping surrounding whitespace,
 * splitting on a separator character, and reading a decimal integer.
 */
module Fields {
  import opened Options

  /**
   * The characters for which Python's `str.isspace` holds, which `str.strip`
   * removes: the ASCII controls 9-13 and 28-31, the space, and the Unicode
   * spaces and separators.
   */
  predicate IsSpace(c: char) {
    var k := c as int;
    || k == 32 || 9 <= k <= 13 || 28 <= k <= 31
    || k == 0x85 || k == 0xA0 || k == 0x1680 || 0x2000 <= k <= 0x200A
    || k == 0x2028 || k == 0x2029 || k == 0x202F || k == 0x205F || k == 0x3000
  }

  /**
   * The ASCII information separators U+001C-U+001F. `str.isspace` holds for
   * them, but `int` does not skip them, so no text holding one is an integer.
   */
  predicate IsInfoSeparator(c: char) {
    28 <= c as int <= 31
  }

  /** No information separator anywhere in the text. */
  predicate SeparatorFree(s: string) {
    forall i :: 0 <= i < |s| ==> !IsInfoSeparator(s[i])
  }

  predicate IsDigit(c: char) {
    '0' <= c <= '9'
  }

  predicate AllDigits(s: string) {
    forall i :: 0 <= i < |s| ==> IsDigit(s[i])
  }

  /** Drops leading whitespace; what is dropped is whitespace and what remains is a suffix. */
  function TrimLeft(s: string): (r: string)
    ensures |r| <= |s| && r == s[|s| - |r|..]
    ensures r == [] || !IsSpace(r[0])
    ensures forall i :: 0 <= i < |s| - |r| ==> IsSpace(s[i])
  {
    if |s| > 0 && IsSpace(s[0]) then TrimLeft(s[1..]) else s
  }

  /** Drops trailing whitespace; what is dropped is whitespace and what remains is a prefix. */
  function TrimRight(s: string): (r: string)
    ensures |r| <= |s| && r == s[..|r|]
    ensures r == [] || !IsSpace(r[|r| - 1])
    ensures forall i :: |r| <= i < |s| ==> IsSpace(s[i])
  {
    if |s| > 0 && IsSpace(s[|s| - 1]) then TrimRight(s[..|s| - 1]) else s
  }

  /** Whitespace stripped from both ends. */
  function Strip(s: string): (r: string)
    ensures r == [] || (!IsSpace(r[0]) && !IsSpace(r[|r| - 1]))
    ensures r == [] <==> forall i :: 0 <= i < |s| ==> IsSpace(s[i])
  {
    var l := TrimLeft(s);
    assert l != [] ==> l[0] == s[|s| - |l|];
    assert TrimRight(l) == [] ==> l == [];
    TrimRight(l)
  }

  /**
   * Strip returns the slice of `s` that starts after the leading whitespace,
   * character for character; everything of `s` before and after that slice
   * is whitespace.
   */
  lemma StripIsSlice(s: string)
    ensures var r, i := Strip(s), |s| - |TrimLeft(s)|;
      && i + |r| <= |s|
      && (forall k :: 0 <= k < |r| ==> r[k] == s[i + k])
      && (forall k :: 0 <= k < i ==> IsSpace(s[k]))
      && (forall k :: i + |r| <= k < |s| ==> IsSpace(s[k]))
  {
    var l := TrimLeft(s);
    var r := TrimRight(l);
    assert Strip(s) == r;
    SliceOfSuffix(s, l, r);
  }

  /** Stripping brings in no character that was not there. */
  lemma StripKeepsOut(s: string, c: char)
    requires c !in s
    ensures c !in Strip(s)
  {
    var l := TrimLeft(s);
    var r := TrimRight(l);
    assert Strip(s) == r;
    assert c !in l by {
      forall k | 0 <= k < |l| ensures l[k] != c {
        assert l[k] == s[|s| - |l| + k];
      }
    }
    forall k | 0 <= k < |r| ensures r[k] != c {
      assert r[k] == l[k];
    }
  }

  /** A prefix `r` of a suffix `l` of `s`, followed in `l` by whitespace only. */
  lemma SliceOfSuffix(s: string, l: string, r: string)
    requires |l| <= |s| && l == s[|s| - |l|..]
    requires |r| <= |l| && r == l[..|r|]
    requires forall k :: |r| <= k < |l| ==> IsSpace(l[k])
    ensures forall k :: 0 <= k < |r| ==> r[k] == s[|s| - |l| + k]
    ensures forall k :: |s| - |l| + |r| <= k < |s| ==> IsSpace(s[k])
  {
    var i := |s| - |l|;
    forall k | 0 <= k < |r| ensures r[k] == s[i + k] {
      assert r[k] == l[k];
    }
    forall k | i + |r| <= k < |s| ensures IsSpace(s[k]) {
      assert s[k] == l[k - i];
    }
  }

  /** A string whose two ends are not whitespace is left alone by Strip. */
  lemma {:induction false} StripKeepsTrimmed(s: string)
    requires s != [] && !IsSpace(s[0]) && !IsSpace(s[|s| - 1])
    ensures Strip(s) == s
  {
  }

  /** The line terminator after a trimmed line is stripped away. */
  lemma {:induction false} StripLineEnd(s: string)
    requires s != [] && !IsSpace(s[0]) && !IsSpace(s[|s| - 1])
    ensures Strip(s + "\n") == s
  {
    assert TrimLeft(s + "\n") == s + "\n";
    assert (s + "\n")[..|s|] == s;
    assert TrimRight(s + "\n") == TrimRight(s);
    StripKeepsTrimmed(s);
  }

  /** Stripping twice is stripping once. */
  lemma {:induction false} StripIdempotent(s: string)
    ensures Strip(Strip(s)) == Strip(s)
  {
    if Strip(s) != [] {
      StripKeepsTrimmed(Strip(s));
    }
  }

  /**
   * Splits at every occurrence of `sep`, keeping empty pieces, so that the
   * result always has one more piece than `s` has separators.
   */
  function Split(s: string, sep: char): (r: seq<string>)
    ensures |r| >= 1
    ensures forall i :: 0 <= i < |r| ==> sep !in r[i]
    decreases |s|
  {
    if |s| == 0 then [""]
    else
      var rest := Split(s[1..], sep);
      if s[0] == sep then [""] + rest
      else [[s[0]] + rest[0]] + rest[1..]
  }

  /** The pieces put back together, separated by `sep`. */
  function Join(parts: seq<string>, sep: char): (s: string)
    requires |parts| >= 1
  {
    if |parts| == 1 then parts[0] else parts[0] + [sep] + Join(parts[1..], sep)
  }

  /** Joining the pieces of a split gives back the string that was split. */
  lemma {:induction false} JoinSplit(s: string, sep: char)
    ensures Join(Split(s, sep), sep) == s
    decreases |s|
  {
    if |s| > 0 {
      JoinSplit(s[1..], sep);
      var rest := Split(s[1..], sep);
      if s[0] != sep {
        if |rest| > 1 {
          assert rest[1..][1..] == rest[2..];
          assert Join(rest, sep) == rest[0] + [sep] + Join(rest[1..], sep);
          assert s == [s[0]] + s[1..];
        } else {
          assert s == [s[0]] + s[1..];
        }
      } else {
        assert s == [sep] + s[1..];
      }
    }
  }

  /** Splitting a separator-free prefix followed by anything extends the first piece. */
  lemma {:induction false} SplitPrefix(w: string, t: string, sep: char)
    requires sep !in w
    ensures Split(w + t, sep) == [w + Split(t, sep)[0]] + Split(t, sep)[1..]
    decreases |w|
  {
    if |w| > 0 {
      SplitPrefix(w[1..], t, sep);
      assert (w + t)[1..] == w[1..] + t;
      assert (w + t)[0] == w[0];
      assert [w[0]] + (w[1..] + Split(t, sep)[0]) == w + Split(t, sep)[0];
    } else {
      var r := Split(t, sep);
      assert w + t == t;
      assert w + r[0] == r[0];
      assert r == [r[0]] + r[1..];
    }
  }

  /** Splitting separator-free pieces joined by the separator gives back the pieces. */
  lemma {:induction false} SplitJoin(parts: seq<string>, sep: char)
    requires |parts| >= 1
    requires forall i :: 0 <= i < |parts| ==> sep !in parts[i]
    ensures Split(Join(parts, sep), sep) == parts
  {
    if |parts| == 1 {
      SplitPrefix(parts[0], "", sep);
      assert parts[0] + "" == parts[0];
      assert parts == [parts[0]];
    } else {
      var tail := Join(parts[1..], sep);
      SplitJoin(parts[1..], sep);
      SplitPrefix(parts[0], [sep] + tail, sep);
      assert Join(parts, sep) == parts[0] + ([sep] + tail);
      assert ([sep] + tail)[1..] == tail;
      assert ([sep] + tail)[0] == sep;
      assert Split([sep] + tail, sep) == [""] + parts[1..];
      assert parts[0] + "" == parts[0];
      assert parts == [parts[0]] + parts[1..];
    }
  }

  function DigitValue(c: char): (d: nat)
    requires IsDigit(c)
  {
    c as int - '0' as int
  }

  /** The value of a run of decimal digits, read from the most significant end. */
  function DigitsValue(ds: string): (n: nat)
    requires AllDigits(ds)
  {
    if |ds| == 0 then 0 else DigitsValue(ds[..|ds| - 1]) * 10 + DigitValue(ds[|ds| - 1])
  }

  /**
   * Reads a decimal integer: surrounding whitespace other than the information
   * separators is skipped, then an optional sign, then at least one digit and
   * nothing else.
   */
  function ParseInt(s: string): (r: Option<int>)
    ensures r.Some? <==> IntText(Strip(s)) && SeparatorFree(s)
    ensures r.Some? && AllDigits(Strip(s)) ==> r.value >= 0
    ensures r.Some? && Strip(s)[0] == '-' ==> r.value <= 0
  {
    var t := Strip(s);
    if !SeparatorFree(s) then None
    else if |t| > 0 && (t[0] == '-' || t[0] == '+') then
      if |t| > 1 && AllDigits(t[1..]) then
        Some(if t[0] == '-' then -(DigitsValue(t[1..]) as int) else DigitsValue(t[1..]))
      else None
    else if |t| > 0 && AllDigits(t) then Some(DigitsValue(t))
    else None
  }

  /** Text `int` accepts once stripped: an optional sign followed by at least one digit. */
  predicate IntText(t: string) {
    || (|t| > 0 && AllDigits(t))
    || (|t| > 1 && (t[0] == '-' || t[0] == '+') && AllDigits(t[1..]))
  }

  function DigitChar(d: nat): (c: char)
    requires d < 10
    ensures IsDigit(c) && DigitValue(c) == d
  {
    ('0' as int + d) as char
  }

  /** The shortest decimal spelling of a natural number. */
  function ShowNat(n: nat): (s: string)
    ensures |s| >= 1 && AllDigits(s) && DigitsValue(s) == n
  {
    if n < 10 then [DigitChar(n)]
    else
      var prefix := ShowNat(n / 10);
      var s := prefix + [DigitChar(n % 10)];
      assert s[..|s| - 1] == prefix;
      s
  }

  /** The decimal spelling of an integer, with a minus sign when it is negative. */
  function Show(n: int): (s: string) {
    if n < 0 then "-" + ShowNat(-n) else ShowNat(n)
  }

  /** Reading back the spelling of an integer gives the integer. */
  lemma {:induction false} ParseShow(n: int)
    ensures ParseInt(Show(n)) == Some(n)
    ensures Show(n) != [] && !IsSpace(Show(n)[0]) && !IsSpace(Show(n)[|Show(n)| - 1])
    ensures ',' !in Show(n)
  {
    var s := Show(n);
    var digits := ShowNat(if n < 0 then -n else n);
    assert IsDigit(digits[|digits| - 1]);
    assert s[|s| - 1] == digits[|digits| - 1];
    if n < 0 {
      assert s[1..] == digits;
      assert s[0] == '-';
    } else {
      assert IsDigit(s[0]);
    }
    StripKeepsTrimmed(s);
    assert SeparatorFree(s) by {
      forall i | 0 <= i < |s| ensures !IsInfoSeparator(s[i]) {
        if i > 0 || n >= 0 {
          assert IsDigit(s[i]) by {
            if n < 0 { assert s[i] == digits[i - 1]; } else { assert s == digits; }
          }
        }
      }
    }
  }

  /** Text holding an information separator is not an integer, wherever it stands. */
  lemma InfoSeparatorIsNotInt(s: string, i: nat)
    requires i < |s| && IsInfoSeparator(s[i])
    ensures ParseInt(s) == None
  {
  }

  /** A blank field is not an integer. */
  lemma BlankIsNotInt(s: string)
    requires forall i :: 0 <= i < |s| ==> IsSpace(s[i])
    ensures ParseInt(s) == None
  {
  }
}

=== FILE: linear.dfy ===
/**
 * The linear part of the model: the weighted sum of a feature row and the
 * zero-inclusive threshold that turns it into a 0/1 prediction.
 */
module Linear {

  /**
   * The sum of x[i] * w[i] over the positions i of the weights, accumulated
   * from position 0 upwards; features beyond the weights take no part.
   */
  function Dot(w: seq<real>, x: seq<int>): (r: real)
    requires |x| >= |w|
  {
    if |w| == 0 then 0.0 else Dot(w[..|w| - 1], x) + (x[|w| - 1] as real) * w[|w| - 1]
  }

  /** 1 when the weighted sum is at least zero, otherwise 0. */
  function Classify(w: seq<real>, x: seq<int>): (r: int)
    requires |x| >= |w|
    ensures r == 0 || r == 1
    ensures r == 1 <==> Dot(w, x) >= 0.0
  {
    if Dot(w, x) >= 0.0 then 1 else 0
  }

  function Zeros(n: nat): (z: seq<real>)
    ensures |z| == n && forall i :: 0 <= i < n ==> z[i] == 0.0
  {
    seq(n, _ => 0.0)
  }

  /** Features past the last weight are ignored, not rejected. */
  lemma {:induction false} DotIgnoresExtraFeatures(w: seq<real>, x: seq<int>)
    requires |x| >= |w|
    ensures Dot(w, x) == Dot(w, x[..|w|])
  {
    if |w| > 0 {
      var init := w[..|w| - 1];
      DotIgnoresExtraFeatures(init, x);
      DotIgnoresExtraFeatures(init, x[..|w|]);
      assert x[..|w|][..|init|] == x[..|init|];
    }
  }

  /**
   * A feature whose weight is zero does not influence the sum: two rows that
   * agree wherever the weight is non-zero have the same sum.
   */
  lemma {:induction false} DotIgnoresZeroWeights(w: seq<real>, x: seq<int>, y: seq<int>)
    requires |x| >= |w| && |y| >= |w|
    requires forall i :: 0 <= i < |w| && w[i] != 0.0 ==> x[i] == y[i]
    ensures Dot(w, x) == Dot(w, y)
  {
    if |w| > 0 {
      DotIgnoresZeroWeights(w[..|w| - 1], x, y);
    }
  }

  /** All-zero weights sum to zero, so they predict 1 for every row. */
  lemma {:induction false} ZeroWeightsPredictOne(w: seq<real>, x: seq<int>)
    requires |x| >= |w|
    requires forall i :: 0 <= i < |w| ==> w[i] == 0.0
    ensures Dot(w, x) == 0.0 && Classify(w, x) == 1
  {
    if |w| > 0 {
      ZeroWeightsPredictOne(w[..|w| - 1], x);
    }
  }

  /** A row whose features are all zero sums to zero whatever the weights. */
  lemma {:induction false} ZeroRowSumsToZero(w: seq<real>, x: seq<int>)
    requires |x| >= |w|
    requires forall i :: 0 <= i < |w| ==> x[i] == 0
    ensures Dot(w, x) == 0.0 && Classify(w, x) == 1
  {
    if |w| > 0 {
      ZeroRowSumsToZero(w[..|w| - 1], x);
    }
  }

  /** Non-negative weights on non-negative features give a non-negative sum. */
  lemma {:induction false} NonNegativeSum(w: seq<real>, x: seq<int>)
    requires |x| >= |w|
    requires forall i :: 0 <= i < |w| ==> w[i] >= 0.0 && x[i] >= 0
    ensures Dot(w, x) >= 0.0 && Classify(w, x) == 1
  {
    if |w| > 0 {
      NonNegativeSum(w[..|w| - 1], x);
    }
  }
}

=== FILE: options.dfy ===
/** The optional value used wherever the Python code raises an exception or returns nothing. */
module Options {

  datatype Option<+T> = None | Some(value: T)
}

=== FILE: perceptron.dfy ===
/**
 * The perceptron model: a weight list that is either trained on a dataset
 * with the Batch Perceptron Pocket algorithm, set from stored weights, or
 * left empty, and that predicts 0 or 1 for a feature row.
 */
module Perceptron {
  import opened Options
  import opened Linear
  import opened Pocket
  import opened Data

  /** The training run a dataset, a feature restriction and the constants describe. */
  function JobFor(data: Dataset, features: Option<set<int>>, config: Config): (job: Setup) {
    Setup(data.data, data.outputs, data.GetInputDimensions(), features, config)
  }

  /** What the trainer needs of its dataset, besides a positive decay interval. */
  ghost predicate CanTrainOn(data: Dataset, config: Config) {
    data.Valid() && data.RowsCoverDimensions() && config.epochsPerReduction > 0
  }

  lemma CanTrainOnIsTrainable(data: Dataset, features: Option<set<int>>, config: Config)
    requires CanTrainOn(data, config)
    ensures Trainable(JobFor(data, features, config))
  {
  }

  /** Names the parts of one epoch's step, so that a caller can match them one by one. */
  lemma EpochStepParts(job: Setup, s: State, epoch: nat, correct: nat, difference: seq<int>)
    requires Trainable(job) && |s.weights| == job.dims && |s.pocket| == job.dims
    requires correct == CorrectCount(s.weights, job.rows, job.labels, |job.rows|)
    requires difference == Difference(s.weights, job.rows, job.labels, |job.rows|)
    ensures EpochStep(job, s, epoch) == State(
      Update(s.weights, difference, s.rate, |job.rows|, job.features),
      if correct > s.maxCorrect then s.weights else s.pocket,
      if correct > s.maxCorrect then correct else s.maxCorrect,
      NextRate(job.config, s.rate, epoch))
  {
  }

  class PerceptronModel {
    var weights: seq<real>

    /** A model with no weights. */
    constructor Empty()
      ensures weights == []
    {
      weights := [];
    }

    /** A model whose weights are given, as when they are read back from a weight file. */
    constructor Loaded(stored: seq<real>)
      ensures weights == stored
    {
      weights := stored;
    }

    /** A model trained on `data`, learning only the weights of `features` when given. */
    constructor Trained(data: Dataset, features: Option<set<int>> := None, config: Config := DefaultConfig)
      requires CanTrainOn(data, config)
      ensures weights == Train(JobFor(data, features, config))
    {
      weights := [];
      new;
      TrainWithData(data, features, config);
    }

    /**
     * The Batch Perceptron Pocket algorithm. The current weights and the
     * pocket start at zero; each epoch scores the current weights, copies them
     * into the pocket when they beat every earlier epoch, moves the allowed
     * weights by the averaged difference, and decays the rate on schedule.
     * The pocket becomes the model.
     */
    method TrainWithData(data: Dataset, features: Option<set<int>>, config: Config)
      requires weights == []
      requires CanTrainOn(data, config)
      modifies this
      ensures weights == Train(JobFor(data, features, config))
    {
      ghost var job := JobFor(data, features, config);
      CanTrainOnIsTrainable(data, features, config);
      var d := data.GetInputDimensions();
      var pocket: seq<real> := [];
      for i := 0 to d
        invariant |weights| == i && |pocket| == i
        invariant forall k :: 0 <= k < i ==> weights[k] == 0.0 && pocket[k] == 0.0
      {
        weights := weights + [0.0];
        pocket := pocket + [0.0];
      }
      assert weights == Zeros(d) && pocket == Zeros(d);
      var maxCorrect: nat := 0;
      var learningRate := config.initialRate;
      for epoch := 0 to config.epochs
        invariant State(weights, pocket, maxCorrect, learningRate) == Run(job, epoch)
      {
        ghost var s := Run(job, epoch);
        var correct, difference := ScoreEpoch(data);
        if correct > maxCorrect {
          pocket := CopyIntoPocket(pocket);
          maxCorrect := correct;
        }
        ApplyUpdate(difference, learningRate, data.GetSize(), features);
        learningRate := DecayRate(config, learningRate, epoch);
        EpochStepParts(job, s, epoch, correct, difference);
        assert Run(job, epoch + 1) == EpochStep(job, s, epoch);
      }
      weights := pocket;
    }

    /** The rate for the next epoch: multiplied by the decay factor after every `epochsPerReduction` epochs. */
    static method DecayRate(config: Config, learningRate: real, epoch: nat) returns (next: real)
      requires config.epochsPerReduction > 0
      ensures next == NextRate(config, learningRate, epoch)
    {
      next := learningRate;
      if (epoch + 1) % config.epochsPerReduction == 0 {
        next := next * config.reduction;
      }
    }

    /** The pocket overwritten, position by position, with the current weights. */
    method CopyIntoPocket(pocket: seq<real>) returns (copied: seq<real>)
      requires |pocket| == |weights|
      ensures copied == weights
    {
      copied := pocket;
      for i := 0 to |weights|
        invariant |copied| == |weights|
        invariant forall k :: 0 <= k < i ==> copied[k] == weights[k]
      {
        copied := copied[i := weights[i]];
      }
    }

    /**
     * One pass over the data with the current weights: the number of rows
     * predicted right, and the difference accumulated from the rows predicted
     * wrong.
     */
    method ScoreEpoch(data: Dataset) returns (correct: nat, difference: seq<int>)
      requires data.Valid() && data.RowsCoverDimensions() && |weights| == data.GetInputDimensions()
      ensures correct == CorrectCount(weights, data.data, data.outputs, data.GetSize())
      ensures difference == Difference(weights, data.data, data.outputs, data.GetSize())
    {
      difference := [];
      for i := 0 to data.GetInputDimensions()
        invariant |difference| == i && forall k :: 0 <= k < i ==> difference[k] == 0
      {
        difference := difference + [0];
      }
      correct := 0;
      for i := 0 to data.GetSize()
        invariant correct == CorrectCount(weights, data.data, data.outputs, i)
        invariant difference == Difference(weights, data.data, data.outputs, i)
      {
        var instance := data.GetInstance(i);
        var prediction := Predict(instance);
        var actualOutput := data.GetOutput(i);
        var error := actualOutput - prediction;
        if error == 0 {
          correct := correct + 1;
        } else {
          ghost var prev := difference;
          for j := 0 to |difference|
            invariant |difference| == |prev|
            invariant forall k :: 0 <= k < j ==> difference[k] == prev[k] + error * instance[k]
            invariant forall k :: j <= k < |difference| ==> difference[k] == prev[k]
          {
            difference := difference[j := difference[j] + error * instance[j]];
          }
          assert difference == AddScaled(prev, error, instance);
        }
      }
    }

    /** Moves every allowed weight by rate * difference / size and leaves the others alone. */
    method ApplyUpdate(difference: seq<int>, learningRate: real, size: nat, features: Option<set<int>>)
      requires |difference| == |weights| && (|weights| > 0 ==> size > 0)
      modifies this
      ensures weights == Update(old(weights), difference, learningRate, size, features)
    {
      ghost var before := weights;
      for j := 0 to |weights|
        invariant |weights| == |before|
        invariant forall k :: 0 <= k < j ==> weights[k] == Update(before, difference, learningRate, size, features)[k]
        invariant forall k :: j <= k < |weights| ==> weights[k] == before[k]
      {
        if Allowed(features, j) {
          weights := weights[j := weights[j] + (learningRate * (difference[j] as real)) / (size as real)];
        }
      }
    }

    /** The model's weights. */
    function GetModelWeights(): (w: seq<real>)
      reads this
      ensures w == weights
    {
      weights
    }

    /** 1 exactly when the weighted sum of the row is at least zero, otherwise 0. */
    method Predict(instance: seq<int>) returns (prediction: int)
      requires |instance| >= |weights|
      ensures prediction == 0 || prediction == 1
      ensures prediction == 1 <==> Dot(weights, instance) >= 0.0
      ensures prediction == Classify(weights, instance)
    {
      var total := WeightedSum(instance);
      if total >= 0.0 {
        prediction := 1;
      } else {
        prediction := 0;
      }
    }

    /** The sum of instance[i] * weights[i] over the weights' positions; extra features are ignored. */
    method WeightedSum(instance: seq<int>) returns (total: real)
      requires |instance| >= |weights|
      ensures total == Dot(weights, instance)
    {
      total := 0.0;
      for i := 0 to |weights|
        invariant total == Dot(weights[..i], instance)
      {
        assert weights[..i + 1][..i] == weights[..i];
        total := total + (instance[i] as real) * weights[i];
      }
      assert weights[..|weights|] == weights;
    }
  }
}

=== FILE: pocket.dfy ===
/**
 * The Batch Perceptron Pocket training run as a pure function of its inputs,
 * epoch by epoch, and the properties of that run: restricted weights stay
 * zero, the best count never drops, the pocket holds the weights of the first
 * best epoch, and the learning rate follows its decay schedule.
 */
module Pocket {
  import opened Options
  import opened Linear

  /** The training constants: epoch count and learning-rate schedule. */
  datatype Config = Config(epochs: nat, initialRate: real, reduction: real, epochsPerReduction: nat)

  /** The constants of the Python `PerceptronModel` class. */
  const DefaultConfig := Config(2000, 10.0, 0.95, 100)

  /**
   * One training run: the feature rows and labels, the input dimension that
   * fixes the number of weights, the optional set of feature indices allowed
   * to learn, and the constants.
   */
  datatype Setup = Setup(rows: seq<seq<int>>, labels: seq<int>, dims: nat, features: Option<set<int>>, config: Config)

  /** Every row has at least `d` features. */
  predicate Covers(rows: seq<seq<int>>, d: nat) {
    forall i :: 0 <= i < |rows| ==> |rows[i]| >= d
  }

  /**
   * What a run needs to be defined: parallel rows and labels, rows long
   * enough for every weight, at least one row whenever there is a weight
   * (the update divides by the row count), and a positive decay interval.
   */
  predicate Trainable(job: Setup) {
    && |job.labels| == |job.rows|
    && Covers(job.rows, job.dims)
    && (job.dims > 0 ==> |job.rows| > 0)
    && job.config.epochsPerReduction > 0
  }

  /** Whether weight `j` may learn: every index when there is no restriction. */
  predicate Allowed(features: Option<set<int>>, j: int) {
    features.None? || j in features.value
  }

  /** How many of the first `n` rows the weights classify as their label says. */
  function CorrectCount(w: seq<real>, rows: seq<seq<int>>, labels: seq<int>, n: nat): (c: nat)
    requires n <= |rows| && |labels| == |rows| && Covers(rows, |w|)
    ensures c <= n
  {
    if n == 0 then 0
    else CorrectCount(w, rows, labels, n - 1) + (if labels[n - 1] == Classify(w, rows[n - 1]) then 1 else 0)
  }

  function IntZeros(n: nat): (z: seq<int>)
    ensures |z| == n && forall i :: 0 <= i < n ==> z[i] == 0
  {
    seq(n, _ => 0)
  }

  function AddScaled(acc: seq<int>, e: int, x: seq<int>): (r: seq<int>)
    requires |x| >= |acc|
  {
    seq(|acc|, j requires 0 <= j < |acc| => acc[j] + e * x[j])
  }

  /**
   * The accumulated difference over the first `n` rows: a row the weights get
   * wrong adds (label - prediction) times its features; a row they get right
   * is skipped.
   */
  function Difference(w: seq<real>, rows: seq<seq<int>>, labels: seq<int>, n: nat): (diff: seq<int>)
    requires n <= |rows| && |labels| == |rows| && Covers(rows, |w|)
    ensures |diff| == |w|
    ensures forall j :: 0 <= j < |w| ==> diff[j] == ErrorSum(w, rows, labels, j, n)
  {
    if n == 0 then IntZeros(|w|)
    else
      var prev := Difference(w, rows, labels, n - 1);
      var e := labels[n - 1] - Classify(w, rows[n - 1]);
      if e == 0 then prev else AddScaled(prev, e, rows[n - 1])
  }

  /** Feature `j`'s error-weighted sum over the first `n` rows, right rows included. */
  function ErrorSum(w: seq<real>, rows: seq<seq<int>>, labels: seq<int>, j: nat, n: nat): (sum: int)
    requires n <= |rows| && |labels| == |rows| && Covers(rows, |w|) && j < |w|
  {
    if n == 0 then 0
    else ErrorSum(w, rows, labels, j, n - 1) + (labels[n - 1] - Classify(w, rows[n - 1])) * rows[n - 1][j]
  }

  /**
   * The allowed weights moved by rate * difference / size; the others are
   * left as they are.
   */
  function Update(w: seq<real>, diff: seq<int>, rate: real, size: nat, features: Option<set<int>>): (r: seq<real>)
    requires |diff| == |w| && (|w| > 0 ==> size > 0)
    ensures |r| == |w|
    ensures forall j :: 0 <= j < |w| && !Allowed(features, j) ==> r[j] == w[j]
    ensures forall j :: 0 <= j < |w| && diff[j] == 0 ==> r[j] == w[j]
  {
    seq(|w|, j requires 0 <= j < |w| =>
      if Allowed(features, j) then w[j] + (rate * (diff[j] as real)) / (size as real) else w[j])
  }

  /** The trainer's variables between epochs. */
  datatype State = State(weights: seq<real>, pocket: seq<real>, maxCorrect: nat, rate: real)

  function Initial(job: Setup): (s: State) {
    State(Zeros(job.dims), Zeros(job.dims), 0, job.config.initialRate)
  }

  /**
   * Epoch number `epoch` (counted from 0): score the current weights, pocket
   * them if they beat every earlier epoch, update the allowed weights, and
   * decay the rate after every `epochsPerReduction`-th epoch.
   */
  function EpochStep(job: Setup, s: State, epoch: nat): (t: State)
    requires Trainable(job) && |s.weights| == job.dims && |s.pocket| == job.dims
    ensures |t.weights| == job.dims && |t.pocket| == job.dims
    ensures t.maxCorrect >= s.maxCorrect
    ensures t.maxCorrect > s.maxCorrect ==>
      t.pocket == s.weights && t.maxCorrect == CorrectCount(s.weights, job.rows, job.labels, |job.rows|)
    ensures t.maxCorrect == s.maxCorrect ==> t.pocket == s.pocket
    ensures forall j :: 0 <= j < job.dims && !Allowed(job.features, j) ==> t.weights[j] == s.weights[j]
  {
    var n := |job.rows|;
    var correct := CorrectCount(s.weights, job.rows, job.labels, n);
    var diff := Difference(s.weights, job.rows, job.labels, n);
    var improved := correct > s.maxCorrect;
    State(
      Update(s.weights, diff, s.rate, n, job.features),
      if improved then s.weights else s.pocket,
      if improved then correct else s.maxCorrect,
      NextRate(job.config, s.rate, epoch))
  }

  /** The rate after epoch number `epoch`: decayed once every `epochsPerReduction` epochs. */
  function NextRate(config: Config, rate: real, epoch: nat): (r: real)
    requires config.epochsPerReduction > 0
    ensures r == rate || r == rate * config.reduction
  {
    if ClosesInterval(config, epoch) then rate * config.reduction else rate
  }

  /** Epoch number `epoch` (counted from 0) is the last of a decay interval. */
  predicate ClosesInterval(config: Config, epoch: nat)
    requires config.epochsPerReduction > 0
  {
    (epoch + 1) % config.epochsPerReduction == 0
  }

  /** The rate after the first `k` epochs, on its own. */
  function RateAfter(config: Config, k: nat): (rate: real)
    requires config.epochsPerReduction > 0
  {
    if k == 0 then config.initialRate else NextRate(config, RateAfter(config, k - 1), k - 1)
  }

  /** The state after the first `k` epochs. */
  function Run(job: Setup, k: nat): (s: State)
    requires Trainable(job)
    ensures |s.weights| == job.dims && |s.pocket| == job.dims
  {
    if k == 0 then Initial(job) else EpochStep(job, Run(job, k - 1), k - 1)
  }

  /** The trained model: the pocket after the last epoch. */
  function Train(job: Setup): (w: seq<real>)
    requires Trainable(job)
    ensures |w| == job.dims
    ensures forall j :: 0 <= j < job.dims && !Allowed(job.features, j) ==> w[j] == 0.0
  {
    ExcludedWeightsStayZero(job, job.config.epochs);
    Run(job, job.config.epochs).pocket
  }

  /** The correct count of epoch `k`, that is, of the weights as they stood before its update. */
  function EpochCorrect(job: Setup, k: nat): (c: nat)
    requires Trainable(job)
  {
    CorrectCount(Run(job, k).weights, job.rows, job.labels, |job.rows|)
  }

  /** A weight outside the allowed set is zero in the current and the pocket weights after every epoch. */
  lemma {:induction false} ExcludedWeightsStayZero(job: Setup, k: nat)
    requires Trainable(job)
    ensures forall j :: 0 <= j < job.dims && !Allowed(job.features, j) ==>
      Run(job, k).weights[j] == 0.0 && Run(job, k).pocket[j] == 0.0
  {
    if k > 0 {
      ExcludedWeightsStayZero(job, k - 1);
      ExcludedStep(job, Run(job, k - 1), k - 1);
    }
  }

  /** One epoch keeps the excluded weights at zero in the current and the pocket weights. */
  lemma ExcludedStep(job: Setup, s: State, epoch: nat)
    requires Trainable(job) && |s.weights| == job.dims && |s.pocket| == job.dims
    requires forall j :: 0 <= j < job.dims && !Allowed(job.features, j) ==> s.weights[j] == 0.0 && s.pocket[j] == 0.0
    ensures var t := EpochStep(job, s, epoch);
      forall j :: 0 <= j < job.dims && !Allowed(job.features, j) ==> t.weights[j] == 0.0 && t.pocket[j] == 0.0
  {
  }

  /** Consequently excluded features never influence what the trained model predicts. */
  lemma {:induction false} ExcludedFeaturesDoNotMatter(job: Setup, x: seq<int>, y: seq<int>)
    requires Trainable(job) && |x| >= job.dims && |y| >= job.dims
    requires forall i :: 0 <= i < job.dims && Allowed(job.features, i) ==> x[i] == y[i]
    ensures Classify(Train(job), x) == Classify(Train(job), y)
  {
    var w := Train(job);
    DotIgnoresZeroWeights(w, x, y);
  }

  /** The best count so far never decreases from one epoch to a later one. */
  lemma {:induction false} BestCountNeverDecreases(job: Setup, k: nat, m: nat)
    requires Trainable(job) && k <= m
    ensures Run(job, k).maxCorrect <= Run(job, m).maxCorrect
    decreases m - k
  {
    if k < m {
      BestStep(job, Run(job, k), k);
      BestCountNeverDecreases(job, k + 1, m);
    }
  }

  /**
   * Epoch `k - 1` replaces the pocket by the weights it scored, and the best
   * count by its count, exactly when it scores strictly more than the best so far.
   */
  lemma PocketStep(job: Setup, k: nat)
    requires Trainable(job) && k > 0
    ensures EpochCorrect(job, k - 1) > Run(job, k - 1).maxCorrect ==>
      Run(job, k).pocket == Run(job, k - 1).weights && Run(job, k).maxCorrect == EpochCorrect(job, k - 1)
    ensures EpochCorrect(job, k - 1) <= Run(job, k - 1).maxCorrect ==>
      Run(job, k).pocket == Run(job, k - 1).pocket && Run(job, k).maxCorrect == Run(job, k - 1).maxCorrect
  {
  }

  /** No epoch so far scored more than the best count. */
  lemma {:induction false} EpochsBelowBest(job: Setup, k: nat)
    requires Trainable(job)
    ensures forall e :: 0 <= e < k ==> EpochCorrect(job, e) <= Run(job, k).maxCorrect
  {
    if k > 0 {
      EpochsBelowBest(job, k - 1);
      BestStep(job, Run(job, k - 1), k - 1);
      var best := Run(job, k).maxCorrect;
      assert Run(job, k - 1).maxCorrect <= best && EpochCorrect(job, k - 1) <= best;
      forall e | 0 <= e < k ensures EpochCorrect(job, e) <= best {
        if e < k - 1 {
          assert EpochCorrect(job, e) <= Run(job, k - 1).maxCorrect;
        }
      }
    }
  }

  /** While no epoch has got a row right, the pocket still holds the initial zeros. */
  lemma {:induction false} NothingRightKeepsZeros(job: Setup, k: nat)
    requires Trainable(job)
    ensures Run(job, k).maxCorrect == 0 ==> Run(job, k).pocket == Zeros(job.dims)
  {
    if k > 0 {
      NothingRightKeepsZeros(job, k - 1);
      BestStep(job, Run(job, k - 1), k - 1);
    }
  }

  /**
   * One epoch: the best count reaches at least the epoch's own count and never
   * drops, and while it stays at zero the pocket stays as it was.
   */
  lemma BestStep(job: Setup, s: State, epoch: nat)
    requires Trainable(job) && |s.weights| == job.dims && |s.pocket| == job.dims
    ensures var t := EpochStep(job, s, epoch);
      && s.maxCorrect <= t.maxCorrect
      && CorrectCount(s.weights, job.rows, job.labels, |job.rows|) <= t.maxCorrect
      && (t.maxCorrect == 0 ==> t.pocket == s.pocket)
  {
  }

  /** An epoch that does not improve on the best count keeps the first best epoch. */
  lemma FirstBestCarries(job: Setup, k: nat, b: nat)
    requires Trainable(job) && k > 0 && FirstBest(job, k - 1, b)
    requires Run(job, k).pocket == Run(job, k - 1).pocket && Run(job, k).maxCorrect == Run(job, k - 1).maxCorrect
    ensures FirstBest(job, k, b)
  {
  }

  /**
   * The pocket after `k` epochs holds the weights of the first of those epochs
   * whose correct count is the largest of them all, and the best count is that
   * largest count; when no epoch got anything right the pocket is all zeros.
   */
  lemma {:induction false} PocketIsFirstBest(job: Setup, k: nat)
    requires Trainable(job)
    ensures forall e :: 0 <= e < k ==> EpochCorrect(job, e) <= Run(job, k).maxCorrect
    ensures Run(job, k).maxCorrect == 0 ==> Run(job, k).pocket == Zeros(job.dims)
    ensures Run(job, k).maxCorrect > 0 ==> exists b :: 0 <= b < k && FirstBest(job, k, b)
  {
    EpochsBelowBest(job, k);
    NothingRightKeepsZeros(job, k);
    if k > 0 && Run(job, k).maxCorrect > 0 {
      PocketIsFirstBest(job, k - 1);
      PocketStep(job, k);
      if EpochCorrect(job, k - 1) > Run(job, k - 1).maxCorrect {
        EpochsBelowBest(job, k - 1);
        assert FirstBest(job, k, k - 1);
      } else {
        var b :| 0 <= b < k - 1 && FirstBest(job, k - 1, b);
        FirstBestCarries(job, k, b);
      }
    }
  }

  /** Epoch `b` is the first of the first `k` epochs to reach the best count, and the pocket holds its weights. */
  predicate FirstBest(job: Setup, k: nat, b: nat)
    requires Trainable(job)
  {
    && Run(job, k).pocket == Run(job, b).weights
    && EpochCorrect(job, b) == Run(job, k).maxCorrect
    && forall e :: 0 <= e < b ==> EpochCorrect(job, e) < Run(job, k).maxCorrect
  }

  /**
   * After at least one epoch the pocket weights score exactly the best count
   * on the training rows, and no epoch scored more: the exported model never
   * falls below its best observed accuracy.
   */
  lemma {:induction false} PocketAccuracyIsBest(job: Setup, k: nat)
    requires Trainable(job) && k > 0
    ensures CorrectCount(Run(job, k).pocket, job.rows, job.labels, |job.rows|) == Run(job, k).maxCorrect
    ensures forall e :: 0 <= e < k ==> EpochCorrect(job, e) <= Run(job, k).maxCorrect
  {
    PocketIsFirstBest(job, k);
    if Run(job, k).maxCorrect == 0 {
      assert Run(job, 0).weights == Zeros(job.dims);
      assert EpochCorrect(job, 0) <= 0;
    } else {
      var b :| 0 <= b < k && FirstBest(job, k, b);
    }
  }

  /** `a` multiplied `n` times by `r`. */
  function Scaled(a: real, r: real, n: nat): (x: real) {
    if n == 0 then a else Scaled(a, r, n - 1) * r
  }

  lemma MulAtLeast(a: int, p: int)
    requires a >= 1 && p > 0
    ensures a * p >= p
  {
    assert a * p == (a - 1) * p + p;
  }

  lemma DivModUnique(n: int, p: int, q: int, m: int)
    requires p > 0 && 0 <= m < p && n == q * p + m
    ensures n / p == q && n % p == m
  {
    var q', m' := n / p, n % p;
    assert n == q' * p + m';
    assert (q - q') * p == m' - m;
    if q > q' {
      MulAtLeast(q - q', p);
    } else if q < q' {
      MulAtLeast(q' - q, p);
    }
  }

  /** Epoch `k` adds one to the number of completed intervals exactly when it closes an interval. */
  lemma StepCount(k: nat, p: nat)
    requires k > 0 && p > 0
    ensures k / p == (k - 1) / p + (if k % p == 0 then 1 else 0)
  {
    var q, m := (k - 1) / p, (k - 1) % p;
    assert k - 1 == q * p + m;
    if m + 1 == p {
      assert k == (q + 1) * p + 0;
      DivModUnique(k, p, q + 1, 0);
    } else {
      DivModUnique(k, p, q, m + 1);
    }
  }

  /** The rate carried through the run is the rate schedule on its own. */
  lemma {:induction false} RunRate(job: Setup, k: nat)
    requires Trainable(job)
    ensures Run(job, k).rate == RateAfter(job.config, k)
  {
    if k > 0 {
      RunRate(job, k - 1);
    }
  }

  /** The number of decay intervals closed by the first `k` epochs, counted one epoch at a time. */
  function Intervals(k: nat, p: nat): (i: nat)
    requires p > 0
  {
    if k == 0 then 0 else Intervals(k - 1, p) + (if k % p == 0 then 1 else 0)
  }

  /** Counting closed intervals one epoch at a time gives floor(k / p). */
  lemma {:induction false} IntervalsIsQuotient(k: nat, p: nat)
    requires p > 0
    ensures Intervals(k, p) == k / p
  {
    if k > 0 {
      IntervalsIsQuotient(k - 1, p);
      StepCount(k, p);
    }
  }

  lemma {:induction false} RateAfterClosedForm(config: Config, k: nat)
    requires config.epochsPerReduction > 0
    ensures RateAfter(config, k) == Scaled(config.initialRate, config.reduction, Intervals(k, config.epochsPerReduction))
  {
    if k > 0 {
      var p := config.epochsPerReduction;
      var i := Intervals(k - 1, p);
      RateAfterClosedForm(config, k - 1);
      RateAfterStep(config, k);
      if k % p == 0 {
        assert Intervals(k, p) == i + 1;
      } else {
        assert Intervals(k, p) == i;
      }
    }
  }

  /** Epoch `k` multiplies the rate by the decay factor exactly when it closes an interval. */
  lemma RateAfterStep(config: Config, k: nat)
    requires config.epochsPerReduction > 0 && k > 0
    ensures RateAfter(config, k) ==
      if k % config.epochsPerReduction == 0 then RateAfter(config, k - 1) * config.reduction else RateAfter(config, k - 1)
  {
    assert (k - 1) + 1 == k;
  }

  /**
   * After `k` epochs the rate is the initial rate multiplied by the decay
   * factor once per completed decay interval, floor(k / epochsPerReduction) times.
   */
  lemma {:induction false} RateSchedule(job: Setup, k: nat)
    requires Trainable(job)
    ensures Run(job, k).rate == Scaled(job.config.initialRate, job.config.reduction, k / job.config.epochsPerReduction)
  {
    var closed := Scaled(job.config.initialRate, job.config.reduction, k / job.config.epochsPerReduction);
    RateAfterClosedForm(job.config, k);
    IntervalsIsQuotient(k, job.config.epochsPerReduction);
    assert RateAfter(job.config, k) == closed;
    RunRate(job, k);
  }

  lemma ScaleDown(a: real, r: real)
    requires a >= 0.0 && 0.0 <= r <= 1.0
    ensures 0.0 <= a * r <= a
  {
  }

  /** With a decay factor in [0, 1] and a non-negative initial rate, the rate only ever decreases. */
  lemma {:induction false} RateNeverGrows(job: Setup, k: nat)
    requires Trainable(job) && job.config.initialRate >= 0.0
    requires 0.0 <= job.config.reduction <= 1.0
    ensures 0.0 <= Run(job, k + 1).rate <= Run(job, k).rate
  {
    RunRate(job, k);
    RunRate(job, k + 1);
    RateAfterDecreases(job.config, k);
  }

  lemma {:induction false} RateAfterDecreases(config: Config, k: nat)
    requires config.epochsPerReduction > 0 && config.initialRate >= 0.0
    requires 0.0 <= config.reduction <= 1.0
    ensures 0.0 <= RateAfter(config, k + 1) <= RateAfter(config, k)
  {
    var rate := RateAfter(config, k);
    if k > 0 {
      RateAfterDecreases(config, k - 1);
    }
    assert RateAfter(config, k + 1) == NextRate(config, rate, k);
    assert rate >= 0.0;
    ScaleDown(rate, config.reduction);
    assert 0.0 <= rate * config.reduction <= rate;
    assert NextRate(config, rate, k) == rate * config.reduction || NextRate(config, rate, k) == rate;
  }

  /** Weights that get every one of the first `n` rows right accumulate no difference. */
  lemma {:induction false} AllCorrectNoDifference(w: seq<real>, rows: seq<seq<int>>, labels: seq<int>, n: nat)
    requires n <= |rows| && |labels| == |rows| && Covers(rows, |w|)
    requires CorrectCount(w, rows, labels, n) == n
    ensures Difference(w, rows, labels, n) == IntZeros(|w|)
  {
    if n > 0 {
      AllCorrectNoDifference(w, rows, labels, n - 1);
    }
  }

  /** An epoch whose weights classify every row correctly leaves the weights unchanged. */
  lemma {:induction false} PerfectEpochIsFixedPoint(job: Setup, s: State, epoch: nat)
    requires Trainable(job) && |s.weights| == job.dims && |s.pocket| == job.dims
    requires CorrectCount(s.weights, job.rows, job.labels, |job.rows|) == |job.rows|
    ensures EpochStep(job, s, epoch).weights == s.weights
  {
    AllCorrectNoDifference(s.weights, job.rows, job.labels, |job.rows|);
  }
}

=== FILE: scenarios.dfy ===
/**
 * A worked training run: two rows, [1, 0] labelled 0 and [0, 1] labelled 1,
 * with the default constants. The first epoch pockets the zero weights and
 * moves to [-5, 0], which classifies both rows correctly; from then on
 * nothing changes, so the trained model is [-5, 0].
 */
module Scenarios {
  import opened Options
  import opened Linear
  import opened Pocket

  function SeparableJob(): (job: Setup) {
    Setup([[1, 0], [0, 1]], [0, 1], 2, None, DefaultConfig)
  }

  lemma FirstEpoch()
    ensures Run(SeparableJob(), 1) == State([-5.0, 0.0], [0.0, 0.0], 1, 10.0)
  {
    var job := SeparableJob();
    var z := Zeros(2);
    assert Run(job, 0) == State(z, z, 0, 10.0);
    ZeroWeightsPredictOne(z, [1, 0]);
    ZeroWeightsPredictOne(z, [0, 1]);
    assert CorrectCount(z, job.rows, job.labels, 2) == 1;
    assert Difference(z, job.rows, job.labels, 1) == [-1, 0];
    assert Difference(z, job.rows, job.labels, 2) == [-1, 0];
    assert Update(z, [-1, 0], 10.0, 2, None) == [-5.0, 0.0];
  }

  /** [-5, 0] gets both rows right. */
  lemma SeparatingWeights()
    ensures Classify([-5.0, 0.0], [1, 0]) == 0 && Classify([-5.0, 0.0], [0, 1]) == 1
    ensures CorrectCount([-5.0, 0.0], SeparableJob().rows, SeparableJob().labels, 2) == 2
  {
    var w := [-5.0, 0.0];
    assert w[..1] == [-5.0] && w[..1][..0] == [];
    assert Dot(w, [1, 0]) == -5.0;
    assert Dot(w, [0, 1]) == 0.0;
  }

  /** From the second epoch on the weights, the pocket and the best count stay put. */
  lemma {:induction false} SettledAfterSecondEpoch(k: nat)
    requires k >= 2
    ensures Run(SeparableJob(), k).weights == [-5.0, 0.0]
    ensures Run(SeparableJob(), k).pocket == [-5.0, 0.0]
    ensures Run(SeparableJob(), k).maxCorrect == 2
  {
    var job := SeparableJob();
    SeparatingWeights();
    if k == 2 {
      FirstEpoch();
    } else {
      SettledAfterSecondEpoch(k - 1);
    }
    var s := Run(job, k - 1);
    PerfectEpochIsFixedPoint(job, s, k - 1);
    BestStep(job, s, k - 1);
    assert Run(job, k) == EpochStep(job, s, k - 1);
  }

  /** The trained model separates the two rows. */
  lemma SeparableDataIsLearned()
    ensures Train(SeparableJob()) == [-5.0, 0.0]
    ensures Dot(Train(SeparableJob()), [1, 0]) < 0.0 && Dot(Train(SeparableJob()), [0, 1]) >= 0.0
  {
    SettledAfterSecondEpoch(DefaultConfig.epochs);
    SeparatingWeights();
  }

  /** With only feature 0 allowed on three features, weights 1 and 2 train to exactly zero. */
  lemma RestrictedToFirstFeature(rows: seq<seq<int>>, labels: seq<int>, config: Config)
    requires Trainable(Setup(rows, labels, 3, Some({0}), config))
    ensures Train(Setup(rows, labels, 3, Some({0}), config))[1] == 0.0
    ensures Train(Setup(rows, labels, 3, Some({0}), config))[2] == 0.0
  {
  }
}
